=== FILE: README.md ===
# sequelize-store, modelled in Dafny

sequelize-store keeps a small key/value configuration object in a single
database table of `(key, value)` string pairs. A **schema** declares every
key that may be used and its type: `int`, `float`, `bool`, `string` or
`json`. A spec is either the bare type name or an options object
`{ type, default? }`. `init` validates the schema, reads every row of the
table, decodes each value by the type its key declares, and caches the
results. The store object then works like this:

- A read returns the cached value or else the declared default.
- A write checks the value's type, updates the cache and queues an upsert of
  the value's string form.
- A `delete` drops the cached value and queues the removal of the row.
- The queue runs one task at a time, in order.

The model consists of these modules:

- `Values`: the JavaScript values the store handles, with `typeof` and the
  `in` and `.` operators as the store uses them.
- `Numbers`: JavaScript numbers, `parseInt`, and the string form of a number.
- `Definitions`: the type engine, which is `isType`, `getType`, `parseType`,
  `validateType` and `isValueOptions`, together with the string encoding a
  write queues.
- `Collect`: the fold over a list of keyed items that both schema validation
  and row loading are built on.
- `Schema`: `validateSchema`, which turns a raw schema object into a map from
  key to normalised spec.
- `WriteQueue`: the write-behind queue as an ordered list of upsert/destroy
  tasks, and the table that results once the queue has drained.
- `Store`: `StoreEntry.parseValue`, `init`, and the proxy's `get`, `set` and
  `deleteProperty` traps as pure functions on an explicit store state. It also
  defines the invariant that the cache and the drained queue agree.
- `Scenarios`: the behaviours in `test/index.spec.ts`, replayed on the model.

Each store operation returns a `Result`. A thrown exception is an `Err`
carrying its class: `SchemaError`, `EntryError`, `SyntaxError` or
`TypeError`. A failed operation leaves the store unchanged. In the model
this holds for every operation. In the source it does not hold for one case
of `set`; see "Store.Set:" under "## Left out".

Calls into the JavaScript runtime that the model does not define are
fields of a `Values.Host` record passed in as a parameter. These are
`JSON.stringify`, `JSON.parse`, `parseFloat` and the formatting of
fractions and of numbers from 1e21 on.

Where the code and its documentation disagree, the model follows the code.
A `json` value that does not parse fails with the `SyntaxError` that
`JSON.parse` throws, not with a `ParseError`. `ParseError` is thrown only
for a type name outside the five tags. The model's closed `Tag` type cannot
express such a name, so `ParseError` does not occur in the model.

## Model

| member | source | states |
|---|---|---|
| Values.TypeOf | src/definitions.ts:54-69 | `typeof` is "object" exactly for null, arrays and objects, which is the split `validateType('json')` relies on |
| Values.HasProperty | src/definitions.ts:72 | `'type' in v` throws TypeError unless v is a non-null object; otherwise it is true exactly when the object has the key |
| Values.Property | src/definitions.ts:34 | reading a property of null or undefined throws TypeError; an object's own field is returned when present; anything else reads as undefined |
| Definitions.DefaultOf | src/index.ts:136-140 | an unset key reads as undefined unless its spec is an options record declaring a default, and then as that default |
| Definitions.TagFromName | src/definitions.ts:7 | a string names a tag exactly when it is one of the five type names, and the tag found prints back as that string |
| Definitions.TagNameRoundTrip | src/definitions.ts:7 | every tag's name is recognised by `isType` and maps back to the same tag |
| Definitions.IsType | src/definitions.ts:20-27 | a value accepted by `isType` is a string naming one of the five tags |
| Definitions.IsTypeExactlyTagNames | src/definitions.ts:20-27 | `isType` accepts exactly the five strings `int`, `float`, `bool`, `string` and `json`, and nothing else |
| Definitions.IsValueOptions | src/definitions.ts:71-77 | a value is an options spec exactly when it is a non-null object with a `type` key whose value satisfies `isType` (corrected for null, see Findings) |
| Definitions.IsValueOptionsAsWritten | src/definitions.ts:71-77 | as written, the check throws TypeError exactly on null and otherwise agrees with the corrected check |
| Definitions.GetType | src/definitions.ts:29-35 | a bare type name is its own type; an options spec yields its `type` field; only null and undefined make the property read throw |
| Definitions.ValidateType | src/definitions.ts:54-69 | bool accepts only booleans, int and float accept only numbers, string accepts only strings, and json accepts exactly null, arrays and objects |
| Definitions.IntAndFloatAcceptSameValues | src/definitions.ts:58-61 | the int and float tags accept the same values |
| Definitions.ValidatedIsDefined | src/index.ts:155-166 | no tag accepts undefined, so the `toString` call on an accepted value is always defined |
| Definitions.ParseType | src/definitions.ts:37-52 | decoding fails only for json text that does not parse, and then with SyntaxError; bool is true exactly for the text "true"; string is the text itself; every non-json result passes `validateType` for its tag |
| Definitions.Encode | src/index.ts:159-166 | a boolean is queued as "true" or "false" matching its value and a string as itself; objects, arrays and null are queued as their `JSON.stringify` text; a number is queued as its `toString` form, so NaN as "NaN" |
| Definitions.RoundTrip | src/definitions.ts:37-52 | decoding the queued string of an accepted value gives the value back for bool, string, integral or NaN int values, and for json when JSON parsing inverts stringify |
| Definitions.IntTagDropsFraction | src/definitions.ts:41-42 | the int tag accepts a fractional number, but when the runtime prints it in plain notation the value read back is that number truncated toward zero, which differs from it |
| Definitions.IntTagReadsMantissa | src/definitions.ts:41-42 | a number the runtime prints in exponent or fraction notation is read back under the int tag as the integer its printed form starts with, so `5e-7` reads back as 5 |
| Definitions.IntTagTurnsInfinityIntoNaN | src/definitions.ts:41-42 | the int tag accepts Infinity, but it reads back as NaN |
| Numbers.NumberToString | src/index.ts:166 | `toString` spells NaN and the infinities out; a number below 1e21 with no fraction prints as an optional minus, present exactly for negatives, followed by decimal digits whose value is its magnitude; every other finite number uses the runtime's formatting |
| Numbers.Decimal | src/index.ts:166 | the decimal form of a natural number is a non-empty digit string without a leading zero, except for zero, which is "0" |
| Numbers.DecimalValue | src/index.ts:166 | the decimal digits of n evaluate back to n |
| Numbers.TrimStart | src/definitions.ts:42 | `parseInt` drops exactly the leading white space, so the rest is a suffix that does not start with white space |
| Numbers.LongestDigitPrefix | src/definitions.ts:42 | `parseInt` reads the longest prefix of digits, stopping at the first non-digit |
| Numbers.DigitPrefixOfDigitsThenStop | src/definitions.ts:42 | digits followed by a non-digit are read exactly up to the non-digit |
| Numbers.ParseInt | src/definitions.ts:42 | in the exact-real model, `parseInt` returns an integer or NaN, never a fraction or an infinity (a double overflows to Infinity once the digit run exceeds about 1.797e308) |
| Numbers.Signed | src/definitions.ts:42 | a sign applied to a digit run gives an integer, and gives NaN exactly when there were no digits |
| Numbers.ParseIntUnsigned | src/definitions.ts:42 | text without a leading sign or white space is read as a non-negative magnitude |
| Numbers.ParseIntNegative | src/definitions.ts:42 | a leading minus negates the magnitude read after it |
| Numbers.ParseMagnitudeOfDecimal | src/definitions.ts:42 | the decimal form of m, followed by anything that neither continues the digits nor forms a hex prefix, reads as m |
| Numbers.ParseIntOfIntToString | src/definitions.ts:42 | `parseInt` reads back the string form of every integer i as i, with or without a non-digit tail |
| Numbers.ParseIntOfNaturalIntToString | src/definitions.ts:42 | the non-negative case of that read-back |
| Numbers.ParseIntOfNegativeIntToString | src/definitions.ts:42 | the negative case of that read-back |
| Numbers.NegativeNotation | src/index.ts:166 | a negative integer prints as a minus sign followed by the decimal form of its magnitude |
| Numbers.ParseIntOfNonDigit | src/definitions.ts:42 | text whose first significant character is not a digit reads as NaN |
| Numbers.IntRoundTrip | src/definitions.ts:42 | `parseInt` reads the string form of NaN and of every number printed as an integer back as the same number |
| Numbers.InfinityReadsBackAsNaN | src/definitions.ts:42 | the string form of plus or minus Infinity reads back as NaN |
| Collect.CollectAll | src/index.ts:109-111 | the fold succeeds exactly when every item is accepted; on failure its error is one raised by some item; on success the keys are the accumulator's plus the items', each item's key maps to that item's accepted value, and other accumulated keys are kept |
| Schema.OptionsSpec | src/index.ts:136-138 | an options spec keeps the declared tag, and its default is the object's `default` property |
| Schema.CheckSpec | src/index.ts:54-65 | a definition is accepted exactly when it is a type name or an options spec, and is otherwise refused with SchemaError; the accepted spec's tag is what `getType` reports, and its default is undefined for a bare name |
| Schema.CheckSpecAsWritten | src/index.ts:54-65 | as written, a null definition throws TypeError; every other definition gets the corrected outcome |
| Schema.ValidateWith | src/index.ts:40-68 | validation with a given check succeeds exactly when the schema is present, non-empty and every definition passes; errors are SchemaError; the result maps exactly the schema's keys to their checked specs |
| Schema.ValidateSchema | src/index.ts:40-68 | a schema is valid exactly when it is present, non-empty and every definition is a type name or an options spec; every failure is SchemaError; the result has exactly the schema's keys, each with the tag `getType` reports |
| Schema.ValidateSchemaAsWritten | src/index.ts:40-68 | as written, validation can also fail with TypeError, and then only because some definition is null |
| Schema.NullDefinitionThrowsTypeError | src/index.ts:58-65 | the schema `{a: null}` fails with TypeError as written, and with SchemaError once corrected |
| Schema.AsWrittenAgreesWithoutNull | src/index.ts:40-68 | on schemas without null definitions, `validateSchema` as written and the corrected validation give the same result |
| Store.ParseValue | src/index.ts:22-29 | a row fails with EntryError exactly when its key is not in the schema, or with SyntaxError when its json does not parse; otherwise it decodes by the key's tag, as `parseType` promises |
| Store.LoadRows | src/index.ts:107-111 | loading succeeds exactly when every row decodes; the first failing row's error is raised; the cache holds exactly the rows' keys, all declared, each mapped to its row's decoded value |
| Store.Init | src/index.ts:92-112 | a second `init` returns the bound store unchanged; an invalid schema fails with SchemaError; otherwise the store holds the validated schema, the loaded rows and an empty queue, or the row error |
| Store.InitAsWritten | src/index.ts:92-112 | `init` as written: a bound store is returned unchanged, and the call fails with TypeError exactly when `validateSchema` as written does, which happens only for a null definition |
| Store.InitAgreesWithoutNull | src/index.ts:92-112 | on schemas without null definitions, `init` as written and the corrected `Init` give the same result |
| Store.InitNullDefinitionThrowsTypeError | src/index.ts:106 | `init` with the schema `{a: null}` fails with TypeError as written, and with SchemaError once corrected |
| Store.Get | src/index.ts:114-141 | reading an undeclared key fails with EntryError, except `then`, which reads as undefined; a declared key reads its cached value if one is set and not undefined, and otherwise its default |
| Store.Set | src/index.ts:142-168 | writing fails with EntryError exactly when the key is undeclared or the value has the wrong type; on success only that key's cache entry changes, and exactly one upsert of the encoded value is appended to the queue |
| Store.Delete | src/index.ts:169-184 | deleting fails with EntryError exactly when the key is undeclared; on success only that key leaves the cache, and exactly one destroy task for it is appended to the queue |
| Store.InitValid | src/index.ts:106-113 | a freshly initialised store satisfies the cache/queue invariant |
| Store.SetPreservesValid | src/index.ts:159-166 | a successful write preserves the invariant that each key's last queued task agrees with the cache |
| Store.DeletePreservesValid | src/index.ts:180-181 | a successful delete preserves that invariant |
| Store.DrainedTableMatchesCache | src/index.ts:166-181 | under the invariant, once the queue drains, a key's row holds the encoded cached value if the key was written, is absent if it was deleted, and is the original row if it was untouched |
| Store.SetThenGet | src/index.ts:132-164 | reading a key right after writing it returns the value written |
| Store.SetLeavesOtherKeys | src/index.ts:159-164 | writing a key does not change what any other key reads |
| Store.DeleteThenGet | src/index.ts:132-140 | after a delete, a key reads as in a store where it was never set, which is its default |
| Store.DeleteLeavesOtherKeys | src/index.ts:180 | deleting a key does not change what any other key reads |
| Store.StepQueuesOne | src/index.ts:166-181 | each successful assignment or delete appends exactly one task for its key, of the matching kind |
| Store.StepPreservesValid | src/index.ts:142-184 | each successful assignment or delete preserves the invariant |
| Store.RunPreservesValid | src/index.ts:142-184 | any sequence of successful assignments and deletes preserves the invariant |
| Store.RunQueuesInOrder | src/index.ts:75 | a sequence of successful assignments and deletes queues one task per statement, in statement order, after the tasks already pending |
| WriteQueue.Apply | src/index.ts:166-181 | an upsert sets its row, a destroy removes it, and every other row is untouched |
| WriteQueue.Drain | src/index.ts:75 | running the queued tasks oldest first changes a row only to a value one of the upserts carries, and removes a row only when one of the destroys names it |
| WriteQueue.LastWrite | src/index.ts:75 | the last task for a key is a task of the queue for that key, and there is none exactly when no task mentions the key |
| WriteQueue.DrainSnoc | src/index.ts:75 | draining a queue with one more task applies that task after the rest |
| WriteQueue.DrainAppend | src/index.ts:75 | draining two queues one after the other is draining their concatenation |
| WriteQueue.DrainLastWriteWins | src/index.ts:75 | with tasks run one at a time in order, each key's row is decided by its last task: an upsert leaves its value, a destroy leaves no row, and no task leaves the original row |
| Scenarios.DefaultsScenario | test/index.spec.ts:139-151 | an unset key with a declared default reads as the default, and a bare-typed unset key reads as undefined |
| Scenarios.LoadScenario | test/index.spec.ts:75-105 | rows already in the table are decoded into the cache at `init` for the bool, string and int tags |
| Scenarios.FreshStore | test/index.spec.ts:108-114 | `init` on an empty table gives a store with the declared schema, nothing cached and nothing queued |
| Scenarios.WriteScriptQueues | test/index.spec.ts:116-123 | after `init`, three writes and a delete queue `bool=false`, `string=hey`, `int=1` and the removal of `string`, in that order, and leave `bool` and `int` cached |
| Scenarios.EncodeOne | test/index.spec.ts:69 | the number 1 is queued as "1" |
| Scenarios.SetDeleteDrainScenario | test/index.spec.ts:107-137 | after the writes and the delete, reads return the written values or undefined, and the drained table holds only `bool` and `int` |

## Left out

- Sequelize itself is not modelled: model definition, `sync`, `findAll`, `upsert` and `destroy`. The table is a `map` from key to string, `findAll` is the list of rows passed to `Store.Init`, and upsert/destroy are map updates.
- The `queue` library's asynchrony is not modelled. The queue is the ordered list of pending tasks, and "drained" means folded over the table in order. The library's error handler, which rethrows a failed database write as EntryError, is not modelled, because database writes are not modelled.
- `JSON.stringify`, `JSON.parse`, `parseFloat` and the formatting of fractions and of numbers from 1e21 on are host functions passed in as parameters.
- Store.Init: it validates with the corrected `validateSchema`, so a null definition fails with SchemaError. `Store.InitAsWritten` is the code as written, and `Store.InitAgreesWithoutNull` shows the two differ only on null definitions. See Findings.
- Definitions.IntTagDropsFraction: it needs the runtime to print the number as its truncation followed by a fraction. JavaScript prints magnitudes below 1e-6 in exponent notation, which `Definitions.IntTagReadsMantissa` covers, and prints numbers between -1 and 0 as "-0.…", which reads back as -0, and -0 is not modelled.
- Definitions.RoundTrip: it excludes the float tag and needs the JSON host functions to be inverse. `parseFloat` and the shortest-round-trip formatting of doubles are host functions.
- Numbers are exact reals. IEEE-754 rounding, `-0` and the loss of precision of `parseInt` above 2^53 are not modelled.
- `Object.freeze` (src/index.ts:160) is shallow. The nested objects and arrays of a stored json value stay mutable, both through the caller's reference and through the object `get` returns, and no trap sees such a mutation. In the source the cache can then drift from the JSON text queued for it, and the drained table can differ from the cache. The model's values are immutable, so `Store.DrainedTableMatchesCache` holds only for stores whose json values are not mutated in place.
- The traps read the caller's schema object live (src/index.ts:119, 136, 147, 174), and it is never copied. `Store.Init` takes a snapshot, so keys added to that object later, or a `default` changed later, are not modelled.
- Overlapping `init` calls are not modelled. The store is bound only at src/index.ts:113, after the awaits at lines 103 and 109, so two `init` calls in flight both pass the check at line 93, and the second replaces the first store. `Store.Init` returning the bound store unchanged holds only for an `init` that starts after the earlier one has finished.
- Symbol property names are not modelled, and neither are their EntryError branches. Model keys are strings.
- The traps bound to `actionNotAllowed` are not modelled: getPrototypeOf, setPrototypeOf, getOwnPropertyDescriptor, defineProperty, apply and construct.
- The module-level singleton is not modelled: `reset`, and `getObject` with its "not initialized" error. `Store.Init` receives the already-bound store, if any, as a parameter.
- The `!sequelize` check in `init` is not modelled, because there is no connection object.
- Schema lookups use own keys only. Names inherited from `Object.prototype`, such as `schema['toString']`, are not modelled.
- Store.Get: the cache is a plain `{}` (src/index.ts:107), and the check at line 132 also sees inherited names. A declared key named after an `Object.prototype` member therefore reads differently in the source. For example, with the schema `{constructor: {type: 'string', default: 'x'}}`, the key `constructor` reads as the inherited `Object` function while unset and after a delete, where the model returns the default `'x'`. Assigning `__proto__` at lines 160 and 162 sets the cache's prototype instead of an own property. The model's cache is a map with own keys only.
- Store.Set: in the source, the value is cached at line 160 before `JSON.stringify` runs at line 161. `JSON.stringify` throws TypeError on a cyclic value or one holding a BigInt. In that case the assignment fails, the new value stays cached and no upsert is queued, so the cache and the table disagree after the queue drains. `JsValue` cannot express cyclic or BigInt values and the host's `stringify` is total, so the model's `Store.Set` never takes this path.
- Boxed `String` objects (`instanceof String`) are not modelled. A string is a primitive `JStr`.
- The `typeof keyName !== 'string'` branch of `validateSchema` is not modelled, because it can never fire: `Object.entries` yields string keys.
- The unknown-type `ParseError` branches of `parseType` and `validateType` are not modelled, because the closed `Tag` type makes them unreachable.
- Declared defaults are not checked against their key's type, because the source does not check them either. `Store.Get` returns them as given.
- A scoped accessor, key enumeration and a purge operation are not modelled, because src/ does not implement them.
- Scenarios cover only the bool, string and int rows of the tests. The float and json rows depend on the host functions.

## Findings

| source | as written | input that shows it | evidently intended | confidence | as-written member | corrected member |
|---|---|---|---|---|---|---|
| src/definitions.ts:71-77 | `typeof null` is "object", so `isValueOptions(null)` evaluates `'type' in null`, which throws TypeError. `validateSchema` (src/index.ts:59-65) therefore rejects a null definition with TypeError. | the schema `{a: null}`, shown by `Schema.NullDefinitionThrowsTypeError` | the definition is refused with SchemaError "definition is not valid", like every other malformed definition | not executed; high | Schema.ValidateSchemaAsWritten | Schema.ValidateSchema |
| src/index.ts:106 | `init` runs `validateSchema` as written, so it passes on the TypeError for a null definition | the schema `{a: null}` on any table, shown by `Store.InitNullDefinitionThrowsTypeError` | `init` fails with SchemaError | not executed; high | Store.InitAsWritten | Store.Init |

=== FILE: collect.dfy ===
/** The shape shared by the two loops of `init` in src/index.ts, the one over
    the schema's entries and the one over the stored rows: each item is
    mapped through a check that may throw, and the first throw ends the
    loop. */
module Collect {

  import opened Wrappers
  import opened Errors

  /** No two items share a key (object keys, primary keys). */
  predicate DistinctBy<A>(xs: seq<A>, key: A -> string) {
    forall i, j :: 0 <= i < j < |xs| ==> key(xs[i]) != key(xs[j])
  }

  function KeySet<A>(xs: seq<A>, key: A -> string): set<string> {
    set i | 0 <= i < |xs| :: key(xs[i])
  }

  /** Adds `f(x)` under `key(x)` to `acc` for every item in order, or fails
      with the error of the first item `f` rejects. */
  function CollectAll<A, W(==)>(xs: seq<A>, key: A -> string, f: A -> Result<W, ErrorKind>, acc: map<string, W>)
    : (r: Result<map<string, W>, ErrorKind>)
    requires DistinctBy(xs, key)
    ensures r.Ok? <==> forall i :: 0 <= i < |xs| ==> f(xs[i]).Ok?
    ensures r.Err? ==> exists i :: 0 <= i < |xs| && f(xs[i]) == Err(r.error)
                                   && forall j :: 0 <= j < i ==> f(xs[j]).Ok?
    ensures r.Ok? ==> r.value.Keys == acc.Keys + KeySet(xs, key)
    ensures r.Ok? ==> forall i :: 0 <= i < |xs| ==> f(xs[i]) == Ok(r.value[key(xs[i])])
    ensures r.Ok? ==> forall k :: k in acc && k !in KeySet(xs, key) ==> r.value[k] == acc[k]
    decreases |xs|
  {
    if |xs| == 0 then Ok(acc)
    else
      var w :- f(xs[0]);
      var r := CollectAll(xs[1..], key, f, acc[key(xs[0]) := w]);
      assert KeySet(xs, key) == {key(xs[0])} + KeySet(xs[1..], key) by {
        forall k | k in KeySet(xs, key) ensures k in {key(xs[0])} + KeySet(xs[1..], key) {
          var i :| 0 <= i < |xs| && key(xs[i]) == k;
          if i > 0 { assert key(xs[1..][i - 1]) == k; }
        }
      }
      r
  }
}

=== FILE: definitions.dfy ===
/** The type engine of src/definitions.ts: the five type tags, recognising a
    tag, reading the tag of a value spec, decoding persisted strings and
    checking native values against a tag. Encoding, which src/index.ts does
    inline in its `set` trap, lives here too so that both directions of the
    codec sit side by side. */
module Definitions {

  import opened Wrappers
  import opened Errors
  import opened Numbers
  import opened Values

  /** The closed set of type tags a schema may use. */
  datatype Tag = Int | Float | Bool | String | Json

  function TagName(t: Tag): string {
    match t
    case Int => "int"
    case Float => "float"
    case Bool => "bool"
    case String => "string"
    case Json => "json"
  }

  /** The list `isType` searches. */
  const TypeNames: seq<string> := ["int", "float", "bool", "string", "json"]

  /** Inverse of `TagName` on the recognised names. */
  function TagFromName(name: string): (r: Option<Tag>)
    ensures r.Some? <==> name in TypeNames
    ensures r.Some? ==> TagName(r.value) == name
  {
    if name == "int" then Some(Int)
    else if name == "float" then Some(Float)
    else if name == "bool" then Some(Bool)
    else if name == "string" then Some(String)
    else if name == "json" then Some(Json)
    else None
  }

  /** `isType`: a string that is one of the five tag names. */
  function IsType(v: JsValue): (b: bool)
    ensures b ==> v.JStr? && TagFromName(v.s).Some?
  {
    TypeOf(v) == "string" && v.s in TypeNames
  }

  /** A value spec after validation: a bare tag, or an options record with
      its tag and the default it declares, if any. */
  datatype Spec = Bare(tag: Tag) | Opts(tag: Tag, default: Option<JsValue>)

  /** What reading an unset key declared with this spec yields. */
  function DefaultOf(spec: Spec): (d: JsValue)
    ensures spec.Bare? ==> d == Undefined
    ensures d != Undefined ==> spec.Opts? && spec.default == Some(d)
    ensures spec.Opts? && spec.default.Some? ==> d == spec.default.value
  {
    if spec.Opts? && spec.default.Some? then spec.default.value else Undefined
  }

  /** `isValueOptions`, with the guard against null the code is missing: an
      object carrying a `type` field that is a recognised tag. */
  function IsValueOptions(v: JsValue): (b: bool)
    ensures b <==> v.JObject? && "type" in v.fields && IsType(v.fields["type"])
  {
    TypeOf(v) == "object" && !v.Null? && HasProperty(v, "type") == Ok(true)
    && IsType(Property(v, "type").value)
  }

  /** `isValueOptions` as written: `typeof null` is "object", so null reaches
      the `in` operator, which throws. */
  function IsValueOptionsAsWritten(v: JsValue): (r: Result<bool, ErrorKind>)
    ensures r.Err? <==> v.Null?
    ensures r.Err? ==> r.error == TypeError
    ensures r.Ok? ==> r.value == IsValueOptions(v)
  {
    if TypeOf(v) != "object" then Ok(false)
    else
      var has :- HasProperty(v, "type");
      if !has then Ok(false) else Ok(IsType(Property(v, "type").value))
  }

  /** `getType`: a bare tag is its own type, anything else is asked for its
      `type` field. */
  function GetType(v: JsValue): (r: Result<JsValue, ErrorKind>)
    ensures IsType(v) ==> r == Ok(v)
    ensures IsValueOptions(v) ==> r.Ok? && IsType(r.value) && r.value == v.fields["type"]
    ensures r.Err? <==> v.Null? || v.Undefined?
  {
    if IsType(v) then Ok(v) else Property(v, "type")
  }

  /** `validateType`: compares `typeof` against the tag; `int` and `float`
      share one check. */
  function ValidateType(v: JsValue, tag: Tag): (b: bool)
    ensures tag == Bool ==> (b <==> v.JBool?)
    ensures (tag == Int || tag == Float) ==> (b <==> v.JNum?)
    ensures tag == String ==> (b <==> v.JStr?)
    ensures tag == Json ==> (b <==> v.Null? || v.JArray? || v.JObject?)
  {
    match tag
    case Bool => TypeOf(v) == "boolean"
    case Int => TypeOf(v) == "number"
    case Float => TypeOf(v) == "number"
    case Json => TypeOf(v) == "object"
    case String => TypeOf(v) == "string"
  }

  /** `parseType`: decodes a persisted string under a tag. Only `json` can
      fail, with the SyntaxError `JSON.parse` throws; a malformed `bool` is
      false and a malformed number is NaN. */
  function ParseType(data: string, tag: Tag, host: Host): (r: Result<JsValue, ErrorKind>)
    ensures r.Err? <==> tag == Json && host.parseJson(data).None?
    ensures r.Err? ==> r.error == SyntaxError
    ensures tag == Bool ==> r.Ok? && r.value.JBool? && (r.value.b <==> data == "true")
    ensures tag == String ==> r.Ok? && r.value == JStr(data)
    ensures r.Ok? && tag != Json ==> ValidateType(r.value, tag)
  {
    match tag
    case Bool => Ok(JBool(data == "true"))
    case Int => Ok(JNum(ParseInt(data)))
    case Float => Ok(JNum(host.parseFloat(data)))
    case Json =>
      (match host.parseJson(data)
       case None => Err(SyntaxError)
       case Some(v) => Ok(v))
    case String => Ok(JStr(data))
  }

  /** The string the `set` trap queues for a value: objects (null and arrays
      included) go through `JSON.stringify`, everything else through
      `toString`, which throws on undefined. */
  function Encode(v: JsValue, host: Host): (r: string)
    requires !v.Undefined?
    ensures v.JBool? ==> (r == "true" <==> v.b) && (r == "false" <==> !v.b)
    ensures v.JStr? ==> r == v.s
    ensures v.JNum? && v.n.NaN? ==> r == "NaN"
    ensures TypeOf(v) == "object" ==> r == host.stringify(v)
    ensures v.JNum? ==> r == NumberToString(v.n, host.formatReal)
  {
    if TypeOf(v) == "object" then host.stringify(v)
    else
      match v
      case JBool(b) => if b then "true" else "false"
      case JNum(n) => NumberToString(n, host.formatReal)
      case JStr(s) => s
  }

  /** `isType` holds exactly for the five tag names. */
  lemma IsTypeExactlyTagNames(v: JsValue)
    ensures IsType(v) <==> exists t: Tag :: v == JStr(TagName(t))
  {
    if IsType(v) {
      var t := TagFromName(v.s).value;
      assert v == JStr(TagName(t));
    } else {
      forall t: Tag ensures v != JStr(TagName(t)) {
        assert TagName(t) in TypeNames;
      }
    }
  }

  lemma TagNameRoundTrip(t: Tag)
    ensures TagFromName(TagName(t)) == Some(t)
    ensures IsType(JStr(TagName(t)))
  {
  }

  /** `int` and `float` accept exactly the same values. */
  lemma IntAndFloatAcceptSameValues(v: JsValue)
    ensures ValidateType(v, Int) == ValidateType(v, Float)
  {
  }

  /** Every value some tag accepts can be encoded. */
  lemma ValidatedIsDefined(v: JsValue, tag: Tag)
    requires ValidateType(v, tag)
    ensures !v.Undefined?
  {
  }

  /** Decoding the encoding of a value the tag accepts gives the value back:
      always for `bool` and `string`, for `int` when the number is NaN or is
      printed as a plain integer, and for `json` when `JSON.parse` inverts
      `JSON.stringify` on it. */
  lemma RoundTrip(v: JsValue, tag: Tag, host: Host)
    requires ValidateType(v, tag) && tag != Float
    requires tag == Int ==> v.n.NaN? || IsPrintedAsInteger(v.n)
    requires tag == Json ==> host.parseJson(host.stringify(v)) == Some(v)
    ensures ParseType(Encode(v, host), tag, host) == Ok(v)
  {
    if tag == Int {
      IntRoundTrip(v.n, host.formatReal);
    } else if tag == Bool {
      assert (if v.b then "true" else "false") == "true" <==> v.b;
    }
  }

  /** A fraction stored under `int` is accepted by `validateType`, but when
      its row is read back `parseInt` keeps only the integer part, rounded
      toward zero (as `2.5` -> "2.5" -> 2). This holds whenever the runtime
      prints the number in plain notation, which JavaScript does for
      magnitudes from 1e-6 up to 1e21. */
  lemma IntTagDropsFraction(r: real, digits: string, host: Host)
    requires !IsIntegral(r)
    requires host.formatReal(r) == IntToString(Truncate(r)) + "." + digits
    ensures ValidateType(JNum(Finite(r)), Int)
    ensures ParseType(Encode(JNum(Finite(r)), host), Int, host) == Ok(JNum(Finite(Truncate(r) as real)))
    ensures Truncate(r) as real != r
  {
    assert IntToString(Truncate(r)) + "." + digits == IntToString(Truncate(r)) + ("." + digits);
    ParseIntOfIntToString(Truncate(r), "." + digits);
  }

  /** A number the runtime prints in exponent notation (`5e-7`, `1.5e+21`)
      is read back under `int` as the integer its mantissa starts with. */
  lemma IntTagReadsMantissa(r: real, m: int, rest: string, host: Host)
    requires !IsPrintedAsInteger(Finite(r))
    requires |rest| > 0 && (rest[0] == '.' || rest[0] == 'e')
    requires host.formatReal(r) == IntToString(m) + rest
    ensures ValidateType(JNum(Finite(r)), Int)
    ensures ParseType(Encode(JNum(Finite(r)), host), Int, host) == Ok(JNum(Finite(m as real)))
  {
    ParseIntOfIntToString(m, rest);
  }

  /** An infinite number stored under `int` is read back as NaN. */
  lemma IntTagTurnsInfinityIntoNaN(negative: bool, host: Host)
    ensures ValidateType(JNum(Infinity(negative)), Int)
    ensures ParseType(Encode(JNum(Infinity(negative)), host), Int, host) == Ok(JNum(NaN))
  {
    InfinityReadsBackAsNaN(negative, host.formatReal);
  }
}

=== FILE: errors.dfy ===
/** The kinds of error the store raises (src/errors.ts) together with the two
    JavaScript runtime errors that escape from it unchanged. */
module Errors {

  datatype ErrorKind =
    | SchemaError   // malformed schema passed to init
    | EntryError    // misuse of the accessor, or a stored row whose key is not in the schema
    | SyntaxError   // thrown by JSON.parse on malformed text while loading a json row
    | TypeError     // thrown by the runtime, e.g. the `in` operator applied to null
}

=== FILE: numbers.dfy ===
/** JavaScript numbers as far as the store touches them: the global `parseInt`
    used to decode `int` rows, and `Number.prototype.toString` used to encode
    numbers before they are queued. */
module Numbers {

  import opened Wrappers

  /** A JavaScript number. Finite values are exact reals: IEEE rounding and
      negative zero are not modelled. */
  datatype Number = Finite(r: real) | NaN | Infinity(negative: bool)

  /** `Number.prototype.toString` switches to exponent notation from 1e21 on. */
  const ExponentThreshold: int := 1_000_000_000_000_000_000_000

  predicate IsIntegral(r: real) {
    r == r.Floor as real
  }

  /** A number whose `toString` is plain decimal integer notation. */
  predicate IsPrintedAsInteger(n: Number) {
    n.Finite? && IsIntegral(n.r) && -ExponentThreshold < n.r.Floor < ExponentThreshold
  }

  /** Value of a character read as a digit in radix up to 36; 36 for a non-digit. */
  function DigitValue(c: char): (d: nat)
    ensures d <= 36
  {
    if '0' <= c <= '9' then c as int - '0' as int
    else if 'a' <= c <= 'z' then c as int - 'a' as int + 10
    else if 'A' <= c <= 'Z' then c as int - 'A' as int + 10
    else 36
  }

  predicate IsRadixDigit(c: char, radix: nat) {
    DigitValue(c) < radix
  }

  predicate AllDigits(s: string, radix: nat) {
    forall i :: 0 <= i < |s| ==> IsRadixDigit(s[i], radix)
  }

  function DigitChar(d: nat): (c: char)
    requires d < 10
    ensures DigitValue(c) == d
  {
    ('0' as int + d) as char
  }

  /** Decimal notation of a natural number, without leading zeros. */
  function Decimal(n: nat): (s: string)
    ensures |s| > 0 && AllDigits(s, 10)
    ensures s[0] == '0' <==> n == 0
    ensures n == 0 ==> s == "0"
  {
    if n < 10 then [DigitChar(n)] else Decimal(n / 10) + [DigitChar(n % 10)]
  }

  /** Value of a digit string read most significant digit first. */
  function DigitsValue(ds: string, radix: nat): nat
    requires AllDigits(ds, radix)
  {
    if |ds| == 0 then 0 else DigitsValue(ds[..|ds| - 1], radix) * radix + DigitValue(ds[|ds| - 1])
  }

  function IntToString(i: int): (s: string)
    ensures |s| > 0
  {
    if i < 0 then ['-'] + Decimal(-i) else Decimal(i)
  }

  /** `Number.prototype.toString()` with no radix. Plain integers below 1e21 and
      the non-finite values are spelled out; every other finite value is
      formatted by the runtime, given here as `formatReal`. */
  function NumberToString(n: Number, formatReal: real -> string): (s: string)
    ensures n.NaN? ==> s == "NaN"
    ensures n.Infinity? ==> s == (if n.negative then "-Infinity" else "Infinity")
    ensures IsPrintedAsInteger(n) ==>
              var start := if n.r < 0.0 then 1 else 0;
              && |s| > start && (s[0] == '-' <==> n.r < 0.0)
              && AllDigits(s[start..], 10)
              && DigitsValue(s[start..], 10) == Magnitude(n.r.Floor)
    ensures n.Finite? && !IsPrintedAsInteger(n) ==> s == formatReal(n.r)
  {
    match n
    case NaN => "NaN"
    case Infinity(negative) => if negative then "-Infinity" else "Infinity"
    case Finite(r) =>
      if IsPrintedAsInteger(n) then
        DecimalValue(Magnitude(r.Floor));
        IntToString(r.Floor)
      else formatReal(r)
  }

  function Magnitude(i: int): nat {
    if i < 0 then -i else i
  }

  /** The integer part of a real, rounding toward zero. */
  function Truncate(r: real): (k: int)
    ensures 0.0 <= r ==> k as real <= r < k as real + 1.0
    ensures r < 0.0 ==> k as real - 1.0 < r <= k as real
  {
    if r >= 0.0 then r.Floor else -((-r).Floor)
  }

  /** The white space `parseInt` skips: the ECMAScript WhiteSpace and
      LineTerminator characters. */
  predicate IsWhiteSpace(c: char) {
    || c == ' ' || c == '\t' || c == '\n' || c == '\r'
    || c == '\U{000B}' || c == '\U{000C}' || c == '\U{00A0}' || c == '\U{FEFF}'
    || c == '\U{1680}' || ('\U{2000}' <= c <= '\U{200A}')
    || c == '\U{2028}' || c == '\U{2029}' || c == '\U{202F}' || c == '\U{205F}' || c == '\U{3000}'
  }

  function TrimStart(s: string): (t: string)
    ensures |t| <= |s| && t == s[|s| - |t|..]
    ensures forall i :: 0 <= i < |s| - |t| ==> IsWhiteSpace(s[i])
    ensures |t| > 0 ==> !IsWhiteSpace(t[0])
  {
    if |s| > 0 && IsWhiteSpace(s[0]) then TrimStart(s[1..]) else s
  }

  /** The longest prefix of `s` made of digits of the given radix. */
  function LongestDigitPrefix(s: string, radix: nat): (ds: string)
    ensures ds <= s
    ensures AllDigits(ds, radix)
    ensures |ds| < |s| ==> !IsRadixDigit(s[|ds|], radix)
  {
    if |s| == 0 || !IsRadixDigit(s[0], radix) then [] else [s[0]] + LongestDigitPrefix(s[1..], radix)
  }

  /** The global `parseInt(s)` with no radix argument: leading white space is
      skipped, one sign is read, a `0x`/`0X` prefix selects radix 16, and the
      longest run of digits that follows is the value; no digits gives NaN.
      Exactness above 2^53 is not modelled. */
  function ParseInt(s: string): (n: Number)
    ensures n.Finite? ==> IsIntegral(n.r)
    ensures !n.Infinity?
  {
    ParseSigned(TrimStart(s))
  }

  /** `parseInt` after the white space: one optional sign, then the magnitude. */
  function ParseSigned(t: string): (n: Number)
    ensures n.Finite? ==> IsIntegral(n.r)
    ensures !n.Infinity?
  {
    if |t| > 0 && t[0] == '-' then Signed(ParseMagnitude(t[1..]), true)
    else if |t| > 0 && t[0] == '+' then Signed(ParseMagnitude(t[1..]), false)
    else Signed(ParseMagnitude(t), false)
  }

  /** The number a magnitude and a sign stand for; no magnitude is NaN. */
  function Signed(m: Option<nat>, negative: bool): (n: Number)
    ensures n.Finite? ==> IsIntegral(n.r)
    ensures n.Finite? <==> m.Some?
    ensures !n.Infinity?
  {
    match m
    case None => NaN
    case Some(v) => Finite((if negative then -(v as int) else v) as real)
  }

  predicate HasHexPrefix(u: string) {
    |u| >= 2 && u[0] == '0' && (u[1] == 'x' || u[1] == 'X')
  }

  /** The unsigned part of `parseInt`: a `0x`/`0X` prefix selects radix 16,
      otherwise radix 10; the longest run of digits is the value, and no
      digits at all is a failure (NaN). */
  function ParseMagnitude(u: string): Option<nat> {
    var radix := if HasHexPrefix(u) then 16 else 10;
    var ds := LongestDigitPrefix(if radix == 16 then u[2..] else u, radix);
    if |ds| == 0 then None else Some(DigitsValue(ds, radix))
  }

  /** Reading back the decimal notation of a natural number gives the number. */
  lemma {:induction false} DecimalValue(n: nat)
    ensures DigitsValue(Decimal(n), 10) == n
  {
    if n >= 10 {
      var s := Decimal(n);
      assert s[..|s| - 1] == Decimal(n / 10);
      DecimalValue(n / 10);
    }
  }

  /** Appending a non-digit does not change the longest digit prefix. */
  lemma {:induction false} DigitPrefixOfDigitsThenStop(ds: string, tail: string, radix: nat)
    requires AllDigits(ds, radix)
    requires |tail| == 0 || !IsRadixDigit(tail[0], radix)
    ensures LongestDigitPrefix(ds + tail, radix) == ds
  {
    if |ds| > 0 {
      assert (ds + tail)[1..] == ds[1..] + tail;
      DigitPrefixOfDigitsThenStop(ds[1..], tail, radix);
    }
  }

  /** `parseInt` of text that starts with neither white space nor a sign. */
  lemma ParseIntUnsigned(u: string)
    requires |u| > 0 && !IsWhiteSpace(u[0]) && u[0] != '-' && u[0] != '+'
    ensures ParseInt(u) == Signed(ParseMagnitude(u), false)
  {
    assert TrimStart(u) == u;
  }

  /** `parseInt` of a minus sign and what follows it. */
  lemma ParseIntNegative(s: string)
    requires |s| > 0 && s[0] == '-'
    ensures ParseInt(s) == Signed(ParseMagnitude(s[1..]), true)
  {
    assert !IsWhiteSpace(s[0]);
    assert TrimStart(s) == s;
  }

  /** The digits of an integer's notation, followed by a non-digit, are read
      as that integer. */
  lemma {:induction false} ParseMagnitudeOfDecimal(m: nat, tail: string)
    requires |tail| == 0 || (!IsRadixDigit(tail[0], 10) && tail[0] != 'x' && tail[0] != 'X')
    ensures ParseMagnitude(Decimal(m) + tail) == Some(m)
  {
    var d := Decimal(m);
    var u := d + tail;
    DigitPrefixOfDigitsThenStop(d, tail, 10);
    DecimalValue(m);
    assert !HasHexPrefix(u) by {
      if |u| >= 2 && u[0] == '0' {
        assert m == 0 && d == "0";
        assert u[1] == tail[0];
      }
    }
  }

  /** `parseInt` reads an integer's decimal notation back, and ignores whatever
      follows it once that starts with a character that is not a digit (a
      decimal point, say); an `x` right after a lone `0` would start a hex
      literal instead, so it is excluded. */
  lemma ParseIntOfIntToString(i: int, tail: string)
    requires |tail| == 0 || (!IsRadixDigit(tail[0], 10) && tail[0] != 'x' && tail[0] != 'X')
    ensures ParseInt(IntToString(i) + tail) == Finite(i as real)
  {
    if i < 0 {
      ParseIntOfNegativeIntToString(i, tail);
    } else {
      ParseIntOfNaturalIntToString(i, tail);
    }
  }

  lemma ParseIntOfNaturalIntToString(i: int, tail: string)
    requires i >= 0
    requires |tail| == 0 || (!IsRadixDigit(tail[0], 10) && tail[0] != 'x' && tail[0] != 'X')
    ensures ParseInt(IntToString(i) + tail) == Finite(i as real)
  {
    ParseMagnitudeOfDecimal(i, tail);
    var u := Decimal(i) + tail;
    assert u == IntToString(i) + tail;
    assert DigitValue(u[0]) < 10;
    ParseIntUnsigned(u);
    assert Signed(Some(i), false) == Finite(i as real);
  }

  lemma ParseIntOfNegativeIntToString(i: int, tail: string)
    requires i < 0
    requires |tail| == 0 || (!IsRadixDigit(tail[0], 10) && tail[0] != 'x' && tail[0] != 'X')
    ensures ParseInt(IntToString(i) + tail) == Finite(i as real)
  {
    var s := IntToString(i) + tail;
    NegativeNotation(i, tail);
    ParseMagnitudeOfDecimal(-i, tail);
    ParseIntNegative(s);
  }

  lemma NegativeNotation(i: int, tail: string)
    requires i < 0
    ensures var s := IntToString(i) + tail; |s| > 0 && s[0] == '-' && s[1..] == Decimal(-i) + tail
  {
    assert IntToString(i) + tail == ['-'] + (Decimal(-i) + tail);
  }

  /** Text whose first character is neither white space, a sign nor a digit
      is not a number to `parseInt`; nor is a minus sign followed by one. */
  lemma ParseIntOfNonDigit(s: string)
    requires |s| > 0 && !IsWhiteSpace(s[0]) && s[0] != '+' && !IsRadixDigit(s[0], 10)
    requires s[0] == '-' ==> |s| > 1 && !IsWhiteSpace(s[1]) && !IsRadixDigit(s[1], 10)
    ensures ParseInt(s) == NaN
  {
    if s[0] == '-' {
      ParseIntNegative(s);
    } else {
      ParseIntUnsigned(s);
    }
  }

  /** Encoding with `toString` and decoding with `parseInt` is lossless
      for NaN and for the numbers printed as plain integers. */
  lemma IntRoundTrip(n: Number, formatReal: real -> string)
    requires n.NaN? || IsPrintedAsInteger(n)
    ensures ParseInt(NumberToString(n, formatReal)) == n
  {
    var s := NumberToString(n, formatReal);
    if n.Finite? {
      ParseIntOfIntToString(n.r.Floor, "");
      assert IntToString(n.r.Floor) + "" == IntToString(n.r.Floor);
    } else {
      ParseIntOfNonDigit(s);
    }
  }

  /** `Infinity` does not survive: its text reads back as NaN. */
  lemma InfinityReadsBackAsNaN(negative: bool, formatReal: real -> string)
    ensures ParseInt(NumberToString(Infinity(negative), formatReal)) == NaN
  {
    ParseIntOfNonDigit(NumberToString(Infinity(negative), formatReal));
  }
}

=== FILE: queue.dfy ===
/** The write queue (`dbQueue` in src/index.ts): a FIFO of persistence tasks,
    run one at a time in submission order against the backing table, which
    is modelled as a map from row key to row value. */
module WriteQueue {

  import opened Wrappers

  /** A queued persistence job: `StoreEntry.upsert` or `StoreEntry.destroy`. */
  datatype Task = Upsert(key: string, value: string) | Destroy(key: string)

  /** The backing table: one string value per primary key. */
  type Rows = map<string, string>

  /** Running one task: it touches its own row and no other. */
  function Apply(db: Rows, t: Task): (db': Rows)
    ensures t.Upsert? ==> t.key in db' && db'[t.key] == t.value
    ensures t.Destroy? ==> t.key !in db'
    ensures forall k :: k != t.key ==> (k in db' <==> k in db)
    ensures forall k :: k != t.key && k in db ==> db'[k] == db[k]
  {
    match t
    case Upsert(k, v) => db[k := v]
    case Destroy(k) => db - {k}
  }

  /** Running every task, oldest first. A row that differs from the table
      it started from was written by one of the upserts, and a row that is
      gone was removed by one of the destroys. */
  function Drain(db: Rows, tasks: seq<Task>): (db': Rows)
    ensures forall k :: k in db' && (k !in db || db'[k] != db[k]) ==>
              exists i :: 0 <= i < |tasks| && tasks[i] == Upsert(k, db'[k])
    ensures forall k :: k in db && k !in db' ==>
              exists i :: 0 <= i < |tasks| && tasks[i] == Destroy(k)
    decreases |tasks|
  {
    if |tasks| == 0 then db else Drain(Apply(db, tasks[0]), tasks[1..])
  }

  /** The most recent task for `key`, found by scanning from the newest end. */
  function LastWrite(tasks: seq<Task>, key: string): (r: Option<Task>)
    ensures r.Some? ==> r.value.key == key && r.value in tasks
    ensures r.None? <==> forall i :: 0 <= i < |tasks| ==> tasks[i].key != key
    ensures r.Some? ==> exists i :: 0 <= i < |tasks| && tasks[i] == r.value
                                    && forall j :: i < j < |tasks| ==> tasks[j].key != key
  {
    if |tasks| == 0 then None
    else if tasks[|tasks| - 1].key == key then Some(tasks[|tasks| - 1])
    else LastWrite(tasks[..|tasks| - 1], key)
  }

  /** Enqueuing one more task puts it after everything already queued. */
  lemma {:induction false} DrainSnoc(db: Rows, p: seq<Task>, t: Task)
    ensures Drain(db, p + [t]) == Apply(Drain(db, p), t)
    decreases |p|
  {
    if |p| > 0 {
      assert (p + [t])[1..] == p[1..] + [t];
      DrainSnoc(Apply(db, p[0]), p[1..], t);
    }
  }

  /** Draining in two batches is draining once: tasks already run by the
      queue and tasks still waiting compose. */
  lemma {:induction false} DrainAppend(db: Rows, p: seq<Task>, q: seq<Task>)
    ensures Drain(db, p + q) == Drain(Drain(db, p), q)
    decreases |p|
  {
    if |p| > 0 {
      assert (p + q)[1..] == p[1..] + q;
      DrainAppend(Apply(db, p[0]), p[1..], q);
    } else {
      assert p + q == q;
    }
  }

  /** Last write wins: after draining, a row is what its key's newest task
      made it, and a key no task names keeps its old row. */
  lemma {:induction false} DrainLastWriteWins(db: Rows, p: seq<Task>, k: string)
    ensures LastWrite(p, k).None? ==>
              (k in Drain(db, p) <==> k in db) && (k in db ==> Drain(db, p)[k] == db[k])
    ensures LastWrite(p, k).Some? && LastWrite(p, k).value.Upsert? ==>
              k in Drain(db, p) && Drain(db, p)[k] == LastWrite(p, k).value.value
    ensures LastWrite(p, k).Some? && LastWrite(p, k).value.Destroy? ==> k !in Drain(db, p)
    decreases |p|
  {
    if |p| > 0 {
      var init := p[..|p| - 1];
      var t := p[|p| - 1];
      assert p == init + [t];
      DrainSnoc(db, init, t);
      DrainLastWriteWins(db, init, k);
    }
  }
}

=== FILE: scenarios.dfy ===
/** The behaviours test/index.spec.ts checks, replayed on the model. */
module Scenarios {

  import opened Wrappers
  import Errors
  import opened Numbers
  import opened Values
  import opened Definitions
  import opened Schema
  import opened WriteQueue
  import opened Store

  /** Defaults are returned for keys never set; a key without one reads as
      undefined. */
  lemma DefaultsScenario(host: Host)
    ensures var opts := JObject(map["type" := JStr("string"), "default" := JStr("ahoj")]);
            var st := Init(None, Some([("string", opts), ("bool", JStr("bool"))]), [], host);
            && st.Ok?
            && Get(st.value, "string") == Ok(JStr("ahoj"))
            && Get(st.value, "bool") == Ok(Undefined)
  {
    var opts := JObject(map["type" := JStr("string"), "default" := JStr("ahoj")]);
    var es: seq<Entry> := [("string", opts), ("bool", JStr("bool"))];
    assert DistinctKeys(es);
    assert IsValueOptions(es[0].1) && IsType(es[1].1);
    assert CheckSpec(opts) == Ok(Opts(String, Some(JStr("ahoj"))));
    assert CheckSpec(es[1].1) == Ok(Bare(Bool));
    var st := Init(None, Some(es), [], host).value;
    assert st.schema["string"] == Opts(String, Some(JStr("ahoj")));
    assert st.schema["bool"] == Bare(Bool);
    assert st.cache.Keys == {};
  }

  /** Rows already in the table are decoded into the cache at `init`. */
  lemma LoadScenario(host: Host)
    ensures var es: seq<Entry> := [("bool", JStr("bool")), ("string", JStr("string")), ("int", JStr("int"))];
            var rows := [Row("bool", "false"), Row("string", "hey"), Row("int", "1")];
            var st := Init(None, Some(es), rows, host);
            && st.Ok?
            && Get(st.value, "bool") == Ok(JBool(false))
            && Get(st.value, "string") == Ok(JStr("hey"))
            && Get(st.value, "int") == Ok(JNum(Finite(1.0)))
  {
    var es: seq<Entry> := [("bool", JStr("bool")), ("string", JStr("string")), ("int", JStr("int"))];
    var rows := [Row("bool", "false"), Row("string", "hey"), Row("int", "1")];
    assert DistinctKeys(es);
    assert DistinctRowKeys(rows);
    assert IsType(es[0].1) && IsType(es[1].1) && IsType(es[2].1);
    assert CheckSpec(es[0].1) == Ok(Bare(Bool));
    assert CheckSpec(es[1].1) == Ok(Bare(String));
    assert CheckSpec(es[2].1) == Ok(Bare(Int));
    var schema := ValidateSchema(Some(es)).value;
    assert schema["bool"] == Bare(Bool) && schema["string"] == Bare(String) && schema["int"] == Bare(Int);
    ParseIntOfIntToString(1, "");
    assert IntToString(1) + "" == "1";
    assert ParseValue(rows[0], schema, host) == Ok(JBool(false));
    assert ParseValue(rows[1], schema, host) == Ok(JStr("hey"));
    assert ParseValue(rows[2], schema, host) == Ok(JNum(Finite(1.0)));
    var st := Init(None, Some(es), rows, host).value;
    assert st.cache["bool"] == JBool(false);
    assert st.cache["string"] == JStr("hey");
    assert st.cache["int"] == JNum(Finite(1.0));
  }

  /** The schema of the set-and-delete tests, restricted to the keys whose
      encodings the model spells out. */
  function ScriptSchema(): (es: seq<Entry>)
    ensures DistinctKeys(es)
  {
    [("bool", JStr("bool")), ("string", JStr("string")), ("int", JStr("int"))]
  }

  /** An empty table gives a store with nothing cached and nothing queued. */
  lemma FreshStore(host: Host)
    ensures Init(None, Some(ScriptSchema()), [], host)
         == Ok(State(map["bool" := Bare(Bool), "string" := Bare(String), "int" := Bare(Int)], map[], []))
  {
    var es := ScriptSchema();
    assert DistinctKeys(es);
    assert CheckSpec(es[0].1) == Ok(Bare(Bool));
    assert CheckSpec(es[1].1) == Ok(Bare(String));
    assert CheckSpec(es[2].1) == Ok(Bare(Int));
    var schema := ValidateSchema(Some(es)).value;
    assert schema.Keys == {"bool", "string", "int"};
    assert schema == map["bool" := Bare(Bool), "string" := Bare(String), "int" := Bare(Int)];
  }

  /** The statements of the set-and-delete tests: `init` on an empty table,
      three assignments, then a `delete`. */
  function WriteScript(host: Host): Result<State, Errors.ErrorKind> {
    var st0 :- Init(None, Some(ScriptSchema()), [], host);
    Statements(st0, host)
  }

  function Statements(st0: State, host: Host): Result<State, Errors.ErrorKind> {
    var st1 :- Set(st0, "bool", JBool(false), host);
    var st2 :- Set(st1, "string", JStr("hey"), host);
    var st3 :- Set(st2, "int", JNum(Finite(1.0)), host);
    Delete(st3, "string")
  }

  /** The script queues one task per statement, in order, and leaves `bool`
      and `int` cached. */
  lemma WriteScriptQueues(host: Host)
    ensures WriteScript(host) == Ok(ScriptEnd())
  {
    FreshStore(host);
    StatementsFromFresh(host);
  }

  /** The store the script ends in. */
  function ScriptEnd(): State {
    State(map["bool" := Bare(Bool), "string" := Bare(String), "int" := Bare(Int)],
          map["bool" := JBool(false), "int" := JNum(Finite(1.0))],
          [Upsert("bool", "false"), Upsert("string", "hey"), Upsert("int", "1"), Destroy("string")])
  }

  lemma StatementsFromFresh(host: Host)
    ensures Statements(State(ScriptEnd().schema, map[], []), host) == Ok(ScriptEnd())
  {
    var schema := ScriptEnd().schema;
    var st1 := State(schema, map["bool" := JBool(false)], [Upsert("bool", "false")]);
    var st2 := State(schema, st1.cache["string" := JStr("hey")], st1.pending + [Upsert("string", "hey")]);
    var st3 := State(schema, st2.cache["int" := JNum(Finite(1.0))], st2.pending + [Upsert("int", "1")]);
    var st4 := State(schema, st3.cache - {"string"}, st3.pending + [Destroy("string")]);
    assert Set(State(schema, map[], []), "bool", JBool(false), host) == Ok(st1);
    assert Set(st1, "string", JStr("hey"), host) == Ok(st2);
    assert Set(st2, "int", JNum(Finite(1.0)), host) == Ok(st3) by {
      EncodeOne(host);
    }
    assert Delete(st3, "string") == Ok(st4);
    assert st4.cache == ScriptEnd().cache;
    assert st4.pending == ScriptEnd().pending;
    assert st4 == ScriptEnd();
    assert Statements(State(schema, map[], []), host) == Ok(st4);
  }

  /** The number 1 is queued as "1". */
  lemma EncodeOne(host: Host)
    ensures Encode(JNum(Finite(1.0)), host) == "1"
  {
    assert IsPrintedAsInteger(Finite(1.0));
    assert IntToString(1) == "1";
  }

  /** Writes reach the table in order once the queue has drained, and a
      deleted key's row is gone. */
  lemma SetDeleteDrainScenario(host: Host)
    ensures WriteScript(host).Ok?
    ensures Get(WriteScript(host).value, "bool") == Ok(JBool(false))
    ensures Get(WriteScript(host).value, "int") == Ok(JNum(Finite(1.0)))
    ensures Get(WriteScript(host).value, "string") == Ok(Undefined)
    ensures Drain(map[], WriteScript(host).value.pending) == map["bool" := "false", "int" := "1"]
  {
    WriteScriptQueues(host);
    ScriptEndReads();
    ScriptTasksDrain();
  }

  lemma ScriptEndReads()
    ensures Get(ScriptEnd(), "bool") == Ok(JBool(false))
    ensures Get(ScriptEnd(), "int") == Ok(JNum(Finite(1.0)))
    ensures Get(ScriptEnd(), "string") == Ok(Undefined)
  {
    assert "string" !in ScriptEnd().cache;
  }

  lemma ScriptTasksDrain()
    ensures Drain(map[], ScriptEnd().pending) == map["bool" := "false", "int" := "1"]
  {
    var p := ScriptEnd().pending;
    var d1 := map["bool" := "false"];
    var d2 := d1["string" := "hey"];
    var d3 := d2["int" := "1"];
    var d4 := d3 - {"string"};
    assert Drain(d4, p[4..]) == d4;
    assert Drain(d3, p[3..]) == Drain(d4, p[4..]);
    assert Drain(d2, p[2..]) == Drain(d3, p[3..]);
    assert Drain(d1, p[1..]) == Drain(d2, p[2..]);
    assert Drain(map[], p) == Drain(d1, p[1..]);
    assert d4 == map["bool" := "false", "int" := "1"];
  }
}

=== FILE: schema.dfy ===
/** Schema validation at `init` (`validateSchema` in src/index.ts): the raw
    schema the caller passes is checked entry by entry and normalised into a
    map from key to `Spec`. */
module Schema {

  import opened Wrappers
  import opened Errors
  import opened Values
  import opened Definitions
  import opened Collect

  /** One `[keyName, valueDefinition]` pair of `Object.entries(schema)`. */
  type Entry = (string, JsValue)

  /** The schema argument of `init`: None when it is missing (undefined or
      null), else its entries in enumeration order. */
  type RawSchema = Option<seq<Entry>>

  function EntryKey(e: Entry): string {
    e.0
  }

  /** Object keys are unique, so the entries of an object never repeat a key. */
  predicate DistinctKeys(es: seq<Entry>) {
    DistinctBy(es, EntryKey)
  }

  /** The spec of an options record: its tag, and its default unless that is
      absent or undefined (the accessor treats both alike). */
  function OptionsSpec(v: JsValue): (spec: Spec)
    requires IsValueOptions(v)
    ensures spec.Opts?
    ensures JStr(TagName(spec.tag)) == v.fields["type"]
    ensures DefaultOf(spec) == Property(v, "default").value
  {
    var d := Property(v, "default").value;
    Opts(TagFromName(v.fields["type"].s).value, if d.Undefined? then None else Some(d))
  }

  /** The check one entry's definition undergoes: a string must be a known
      tag, anything else must be an object satisfying `isValueOptions`. */
  function CheckSpec(v: JsValue): (r: Result<Spec, ErrorKind>)
    ensures r.Ok? <==> IsType(v) || IsValueOptions(v)
    ensures r.Err? ==> r.error == SchemaError
    ensures r.Ok? ==> GetType(v) == Ok(JStr(TagName(r.value.tag)))
    ensures r.Ok? && IsType(v) ==> DefaultOf(r.value) == Undefined
    ensures r.Ok? && !IsType(v) ==> DefaultOf(r.value) == Property(v, "default").value
  {
    if TypeOf(v) == "string" then
      if IsType(v) then Ok(Bare(TagFromName(v.s).value)) else Err(SchemaError)
    else if TypeOf(v) != "object" then Err(SchemaError)
    else if !IsValueOptions(v) then Err(SchemaError)
    else Ok(OptionsSpec(v))
  }

  /** The same check as written, with `isValueOptions` throwing on null. */
  function CheckSpecAsWritten(v: JsValue): (r: Result<Spec, ErrorKind>)
    ensures r == Err(TypeError) <==> v.Null?
    ensures r.Err? ==> r.error == SchemaError || r.error == TypeError
    ensures !v.Null? ==> r == CheckSpec(v)
  {
    if TypeOf(v) == "string" then
      if IsType(v) then Ok(Bare(TagFromName(v.s).value)) else Err(SchemaError)
    else if TypeOf(v) != "object" then Err(SchemaError)
    else
      var ok :- IsValueOptionsAsWritten(v);
      if !ok then Err(SchemaError) else Ok(OptionsSpec(v))
  }

  /** The body of `validateSchema` with the per-entry check as a parameter. */
  function ValidateWith(raw: RawSchema, check: JsValue -> Result<Spec, ErrorKind>)
    : (r: Result<map<string, Spec>, ErrorKind>)
    requires raw.Some? ==> DistinctKeys(raw.value)
    ensures r.Ok? <==> raw.Some? && |raw.value| > 0 && forall i :: 0 <= i < |raw.value| ==> check(raw.value[i].1).Ok?
    ensures r.Err? ==> r.error == SchemaError
                       || (raw.Some? && exists i :: 0 <= i < |raw.value| && check(raw.value[i].1) == Err(r.error))
    ensures r.Ok? ==> r.value.Keys == KeySet(raw.value, EntryKey)
    ensures r.Ok? ==> forall i :: 0 <= i < |raw.value| ==> check(raw.value[i].1) == Ok(r.value[raw.value[i].0])
  {
    if raw.None? then Err(SchemaError)
    else if |raw.value| == 0 then Err(SchemaError)
    else CollectAll(raw.value, EntryKey, (e: Entry) => check(e.1), map[])
  }

  /** `validateSchema`, with null definitions rejected as SchemaError. A
      schema passes exactly when it is present, non-empty and every
      definition is a known tag or a valid options record; the result maps
      each key to the tag `getType` would read from its definition. */
  function ValidateSchema(raw: RawSchema): (r: Result<map<string, Spec>, ErrorKind>)
    requires raw.Some? ==> DistinctKeys(raw.value)
    ensures r.Ok? <==> raw.Some? && |raw.value| > 0
                       && forall i :: 0 <= i < |raw.value| ==> IsType(raw.value[i].1) || IsValueOptions(raw.value[i].1)
    ensures r.Err? ==> r.error == SchemaError
    ensures r.Ok? ==> r.value.Keys == KeySet(raw.value, EntryKey)
    ensures r.Ok? ==> forall i :: 0 <= i < |raw.value| ==>
                        GetType(raw.value[i].1) == Ok(JStr(TagName(r.value[raw.value[i].0].tag)))
  {
    ValidateWith(raw, CheckSpec)
  }

  /** `validateSchema` as written. */
  function ValidateSchemaAsWritten(raw: RawSchema): (r: Result<map<string, Spec>, ErrorKind>)
    requires raw.Some? ==> DistinctKeys(raw.value)
    ensures r.Err? ==> r.error == SchemaError || r.error == TypeError
    ensures r == Err(TypeError) ==> raw.Some? && exists i :: 0 <= i < |raw.value| && raw.value[i].1.Null?
  {
    ValidateWith(raw, CheckSpecAsWritten)
  }

  /** A schema with a null definition makes `validateSchema` as written throw
      a TypeError where a SchemaError is meant. */
  lemma NullDefinitionThrowsTypeError()
    ensures ValidateSchemaAsWritten(Some([("a", Null)])) == Err(TypeError)
    ensures ValidateSchema(Some([("a", Null)])) == Err(SchemaError)
  {
    var es: seq<Entry> := [("a", Null)];
    assert CheckSpecAsWritten(es[0].1) == Err(TypeError);
  }

  /** Without null definitions, `validateSchema` as written and the
      corrected check agree on every schema. */
  lemma AsWrittenAgreesWithoutNull(raw: RawSchema)
    requires raw.Some? ==> DistinctKeys(raw.value)
    requires raw.Some? ==> forall i :: 0 <= i < |raw.value| ==> !raw.value[i].1.Null?
    ensures ValidateSchemaAsWritten(raw) == ValidateSchema(raw)
  {
    var w := ValidateWith(raw, CheckSpecAsWritten);
    var c := ValidateWith(raw, CheckSpec);
    if raw.Some? {
      SameCheckWithoutNull(raw.value);
      if c.Ok? {
        SameMap(raw.value, w.value, c.value);
      }
    }
  }

  lemma SameCheckWithoutNull(es: seq<Entry>)
    requires forall i :: 0 <= i < |es| ==> !es[i].1.Null?
    ensures forall i :: 0 <= i < |es| ==> CheckSpecAsWritten(es[i].1) == CheckSpec(es[i].1)
  {
  }

  /** Two maps over the same entries that agree on every entry's key agree. */
  lemma SameMap(es: seq<Entry>, a: map<string, Spec>, b: map<string, Spec>)
    requires a.Keys == KeySet(es, EntryKey) && b.Keys == KeySet(es, EntryKey)
    requires forall i :: 0 <= i < |es| ==> a[es[i].0] == b[es[i].0]
    ensures a == b
  {
    forall k | k in a ensures a[k] == b[k] {
      var i :| 0 <= i < |es| && EntryKey(es[i]) == k;
    }
  }
}

=== FILE: store.dfy ===
/** The store of src/index.ts: loading the stored rows at `init`, and the
    accessor's `get`, `set` and `deleteProperty` traps over the in-memory
    cache (`localStore`) and the write queue. The module singleton becomes an
    explicit `State` value threaded through the operations. */
module Store {

  import opened Wrappers
  import opened Errors
  import opened Values
  import opened Definitions
  import opened Collect
  import opened Schema
  import opened WriteQueue

  /** A stored row (`StoreEntry`). */
  datatype Row = Row(key: string, value: string)

  /** A bound store: the validated schema, the cache of values currently set,
      and the tasks queued for the backing table and not yet run. */
  datatype State = State(schema: map<string, Spec>, cache: map<string, JsValue>, pending: seq<Task>)

  /** The one undeclared name `get` answers without throwing: awaiting code
      probes every resolved value for a `then` method. */
  const ThenProbe: string := "then"

  function RowKey(row: Row): string {
    row.key
  }

  /** `key` is the table's primary key. */
  predicate DistinctRowKeys(rows: seq<Row>) {
    DistinctBy(rows, RowKey)
  }

  /** `StoreEntry.parseValue`: a row whose key the schema does not declare is
      an EntryError; otherwise its text is decoded under the declared tag. */
  function ParseValue(row: Row, schema: map<string, Spec>, host: Host): (r: Result<JsValue, ErrorKind>)
    ensures r.Err? <==> row.key !in schema || (schema[row.key].tag == Json && host.parseJson(row.value).None?)
    ensures r.Err? ==> r.error == (if row.key !in schema then EntryError else SyntaxError)
    ensures r.Ok? && schema[row.key].tag != Json ==> ValidateType(r.value, schema[row.key].tag)
    ensures r.Ok? && schema[row.key].tag == Bool ==> r.value == JBool(row.value == "true")
    ensures r.Ok? && schema[row.key].tag == String ==> r.value == JStr(row.value)
  {
    if row.key !in schema then Err(EntryError)
    else ParseType(row.value, schema[row.key].tag, host)
  }

  /** The load loop of `init`: every stored row is decoded into the cache,
      and the first row that fails ends the loop with its error. */
  function LoadRows(rows: seq<Row>, schema: map<string, Spec>, host: Host): (r: Result<map<string, JsValue>, ErrorKind>)
    requires DistinctRowKeys(rows)
    ensures r.Ok? <==> forall i :: 0 <= i < |rows| ==> ParseValue(rows[i], schema, host).Ok?
    ensures r.Err? ==> exists i :: 0 <= i < |rows| && ParseValue(rows[i], schema, host) == Err(r.error)
                                   && forall j :: 0 <= j < i ==> ParseValue(rows[j], schema, host).Ok?
    ensures r.Ok? ==> r.value.Keys == KeySet(rows, RowKey) && r.value.Keys <= schema.Keys
    ensures r.Ok? ==> forall i :: 0 <= i < |rows| ==> ParseValue(rows[i], schema, host) == Ok(r.value[rows[i].key])
  {
    var r := CollectAll(rows, RowKey, (row: Row) => ParseValue(row, schema, host), map[]);
    assert r.Ok? ==> r.value.Keys <= schema.Keys by {
      if r.Ok? {
        forall k | k in r.value ensures k in schema {
          var i :| 0 <= i < |rows| && rows[i].key == k;
          assert ParseValue(rows[i], schema, host).Ok?;
        }
      }
    }
    r
  }

  /** `init`. A store that is already bound is returned untouched, whatever
      the arguments. Otherwise the schema is validated, every stored row is
      decoded into the cache, and nothing is queued. */
  function Init(bound: Option<State>, raw: RawSchema, rows: seq<Row>, host: Host): (r: Result<State, ErrorKind>)
    requires raw.Some? ==> DistinctKeys(raw.value)
    requires DistinctRowKeys(rows)
    ensures bound.Some? ==> r == Ok(bound.value)
    ensures bound.None? && ValidateSchema(raw).Err? ==> r == Err(SchemaError)
    ensures bound.None? && ValidateSchema(raw).Ok? ==>
              (r.Ok? <==> forall i :: 0 <= i < |rows| ==> ParseValue(rows[i], ValidateSchema(raw).value, host).Ok?)
    ensures bound.None? && r.Err? && ValidateSchema(raw).Ok? ==>
              exists i :: 0 <= i < |rows| && ParseValue(rows[i], ValidateSchema(raw).value, host) == Err(r.error)
    ensures bound.None? && r.Ok? ==>
              && r.value.schema == ValidateSchema(raw).value
              && r.value.pending == []
              && r.value.cache.Keys == KeySet(rows, RowKey)
              && r.value.cache.Keys <= r.value.schema.Keys
              && forall i :: 0 <= i < |rows| ==> ParseValue(rows[i], r.value.schema, host) == Ok(r.value.cache[rows[i].key])
  {
    if bound.Some? then Ok(bound.value)
    else
      var schema :- ValidateSchema(raw);
      var cache :- LoadRows(rows, schema, host);
      Ok(State(schema, cache, []))
  }

  /** `init` as written: validation goes through `validateSchema` as
      written, which throws a TypeError on a null definition. That error,
      and only that one, cannot come from the corrected `Init`. */
  function InitAsWritten(bound: Option<State>, raw: RawSchema, rows: seq<Row>, host: Host): (r: Result<State, ErrorKind>)
    requires raw.Some? ==> DistinctKeys(raw.value)
    requires DistinctRowKeys(rows)
    ensures bound.Some? ==> r == Ok(bound.value)
    ensures r == Err(TypeError) <==> bound.None? && ValidateSchemaAsWritten(raw) == Err(TypeError)
    ensures r == Err(TypeError) ==> raw.Some? && exists i :: 0 <= i < |raw.value| && raw.value[i].1.Null?
  {
    if bound.Some? then Ok(bound.value)
    else
      var schema :- ValidateSchemaAsWritten(raw);
      var cache :- LoadRows(rows, schema, host);
      Ok(State(schema, cache, []))
  }

  /** Without null definitions, `init` as written and the corrected `Init`
      agree. */
  lemma InitAgreesWithoutNull(bound: Option<State>, raw: RawSchema, rows: seq<Row>, host: Host)
    requires raw.Some? ==> DistinctKeys(raw.value)
    requires DistinctRowKeys(rows)
    requires raw.Some? ==> forall i :: 0 <= i < |raw.value| ==> !raw.value[i].1.Null?
    ensures InitAsWritten(bound, raw, rows, host) == Init(bound, raw, rows, host)
  {
    AsWrittenAgreesWithoutNull(raw);
  }

  /** `init` with the schema `{a: null}` throws a TypeError as written, and a
      SchemaError once corrected. */
  lemma InitNullDefinitionThrowsTypeError(rows: seq<Row>, host: Host)
    requires DistinctRowKeys(rows)
    ensures InitAsWritten(None, Some([("a", Null)]), rows, host) == Err(TypeError)
    ensures Init(None, Some([("a", Null)]), rows, host) == Err(SchemaError)
  {
    NullDefinitionThrowsTypeError();
  }

  /** The `get` trap. */
  function Get(st: State, name: string): (r: Result<JsValue, ErrorKind>)
    ensures r.Err? <==> name !in st.schema && name != ThenProbe
    ensures r.Err? ==> r.error == EntryError
    ensures name !in st.schema && name == ThenProbe ==> r == Ok(Undefined)
    ensures name in st.schema && name in st.cache && st.cache[name] != Undefined ==> r == Ok(st.cache[name])
    ensures name in st.schema && (name !in st.cache || st.cache[name] == Undefined) ==> r == Ok(DefaultOf(st.schema[name]))
  {
    if name !in st.schema then
      if name == ThenProbe then Ok(Undefined) else Err(EntryError)
    else if name in st.cache && st.cache[name] != Undefined then Ok(st.cache[name])
    else Ok(DefaultOf(st.schema[name]))
  }

  /** The `set` trap: validates before it mutates, then caches the value and
      queues one upsert of its encoding. Encoding cannot fail here, because
      the host's `stringify` is total on the values the model expresses. */
  function Set(st: State, name: string, value: JsValue, host: Host): (r: Result<State, ErrorKind>)
    ensures r.Err? <==> name !in st.schema || !ValidateType(value, st.schema[name].tag)
    ensures r.Err? ==> r.error == EntryError
    ensures r.Ok? ==> r.value.schema == st.schema
    ensures r.Ok? ==> r.value.cache.Keys == st.cache.Keys + {name} && r.value.cache[name] == value
    ensures r.Ok? ==> forall k :: k in st.cache && k != name ==> r.value.cache[k] == st.cache[k]
    ensures r.Ok? ==> |r.value.pending| == |st.pending| + 1 && r.value.pending[..|st.pending|] == st.pending
    ensures r.Ok? ==> !value.Undefined? && r.value.pending[|st.pending|] == Upsert(name, Encode(value, host))
  {
    if name !in st.schema then Err(EntryError)
    else if !ValidateType(value, st.schema[name].tag) then Err(EntryError)
    else Ok(State(st.schema, st.cache[name := value], st.pending + [Upsert(name, Encode(value, host))]))
  }

  /** The `deleteProperty` trap: drops the cached value and queues one delete. */
  function Delete(st: State, name: string): (r: Result<State, ErrorKind>)
    ensures r.Err? <==> name !in st.schema
    ensures r.Err? ==> r.error == EntryError
    ensures r.Ok? ==> r.value.schema == st.schema
    ensures r.Ok? ==> r.value.cache.Keys == st.cache.Keys - {name}
    ensures r.Ok? ==> forall k :: k in r.value.cache ==> r.value.cache[k] == st.cache[k]
    ensures r.Ok? ==> |r.value.pending| == |st.pending| + 1 && r.value.pending[..|st.pending|] == st.pending
    ensures r.Ok? ==> r.value.pending[|st.pending|] == Destroy(name)
  {
    if name !in st.schema then Err(EntryError)
    else Ok(State(st.schema, st.cache - {name}, st.pending + [Destroy(name)]))
  }

  /** For every key some queued task names, the newest such task agrees with
      the cache: an upsert carries the encoding of the cached value, a delete
      means the key is not cached. */
  ghost predicate Synced(st: State, host: Host) {
    forall k :: LastWrite(st.pending, k).Some? ==>
      match LastWrite(st.pending, k).value
      case Upsert(_, v) => k in st.cache && !st.cache[k].Undefined? && v == Encode(st.cache[k], host)
      case Destroy(_) => k !in st.cache
  }

  /** The invariant of a bound store: only declared keys are cached, and the
      queue is in step with the cache. */
  ghost predicate Valid(st: State, host: Host) {
    st.cache.Keys <= st.schema.Keys && Synced(st, host)
  }

  lemma LastWriteSnoc(p: seq<Task>, t: Task, k: string)
    ensures LastWrite(p + [t], k) == if t.key == k then Some(t) else LastWrite(p, k)
  {
    assert (p + [t])[..|p|] == p;
  }

  /** A freshly loaded store is valid. */
  lemma InitValid(raw: RawSchema, rows: seq<Row>, host: Host)
    requires raw.Some? ==> DistinctKeys(raw.value)
    requires DistinctRowKeys(rows)
    ensures Init(None, raw, rows, host).Ok? ==> Valid(Init(None, raw, rows, host).value, host)
  {
  }

  /** A successful `set` keeps the store valid. */
  lemma SetPreservesValid(st: State, name: string, value: JsValue, host: Host)
    requires Valid(st, host)
    requires Set(st, name, value, host).Ok?
    ensures Valid(Set(st, name, value, host).value, host)
  {
    var st' := Set(st, name, value, host).value;
    forall k | LastWrite(st'.pending, k).Some?
      ensures match LastWrite(st'.pending, k).value
              case Upsert(_, v) => k in st'.cache && !st'.cache[k].Undefined? && v == Encode(st'.cache[k], host)
              case Destroy(_) => k !in st'.cache
    {
      LastWriteSnoc(st.pending, Upsert(name, Encode(value, host)), k);
    }
  }

  /** A successful `delete` keeps the store valid. */
  lemma DeletePreservesValid(st: State, name: string, host: Host)
    requires Valid(st, host)
    requires Delete(st, name).Ok?
    ensures Valid(Delete(st, name).value, host)
  {
    var st' := Delete(st, name).value;
    forall k | LastWrite(st'.pending, k).Some?
      ensures match LastWrite(st'.pending, k).value
              case Upsert(_, v) => k in st'.cache && !st'.cache[k].Undefined? && v == Encode(st'.cache[k], host)
              case Destroy(_) => k !in st'.cache
    {
      LastWriteSnoc(st.pending, Destroy(name), k);
    }
  }

  /** Once the queue has drained, every row some queued task touched holds
      the encoding of the cached value, or is gone if the key is not cached;
      every other row is as it was. */
  lemma DrainedTableMatchesCache(st: State, db: Rows, host: Host, k: string)
    requires Synced(st, host)
    ensures LastWrite(st.pending, k).Some? ==>
              (k in Drain(db, st.pending) <==> k in st.cache)
              && (k in st.cache ==> !st.cache[k].Undefined? && Drain(db, st.pending)[k] == Encode(st.cache[k], host))
    ensures LastWrite(st.pending, k).None? ==>
              (k in Drain(db, st.pending) <==> k in db) && (k in db ==> Drain(db, st.pending)[k] == db[k])
  {
    DrainLastWriteWins(db, st.pending, k);
  }

  /** Reading a key right after setting it gives the value set. */
  lemma SetThenGet(st: State, name: string, value: JsValue, host: Host)
    requires Set(st, name, value, host).Ok?
    ensures Get(Set(st, name, value, host).value, name) == Ok(value)
  {
  }

  /** Setting one key does not change what any other name reads as. */
  lemma SetLeavesOtherKeys(st: State, name: string, value: JsValue, host: Host, other: string)
    requires Set(st, name, value, host).Ok? && other != name
    ensures Get(Set(st, name, value, host).value, other) == Get(st, other)
  {
  }

  /** After a delete, a key reads as it would in a store where it was never
      set: its declared default, or undefined. */
  lemma DeleteThenGet(st: State, name: string)
    requires Delete(st, name).Ok?
    ensures Get(Delete(st, name).value, name) == Get(State(st.schema, map[], []), name)
    ensures Get(Delete(st, name).value, name) == Ok(DefaultOf(st.schema[name]))
  {
  }

  /** Deleting one key does not change what any other name reads as. */
  lemma DeleteLeavesOtherKeys(st: State, name: string, other: string)
    requires Delete(st, name).Ok? && other != name
    ensures Get(Delete(st, name).value, other) == Get(st, other)
  {
  }

  /** A mutating statement of the caller: an assignment to or a `delete` of a
      property of the store object. */
  datatype Mutation = Assign(name: string, value: JsValue) | Remove(name: string)

  /** Running one statement: the trap it invokes. */
  function Step(st: State, m: Mutation, host: Host): Result<State, ErrorKind> {
    match m
    case Assign(name, value) => Set(st, name, value, host)
    case Remove(name) => Delete(st, name)
  }

  /** One statement queues one task, for its own key, after the old ones. */
  lemma StepQueuesOne(st: State, m: Mutation, host: Host)
    requires Step(st, m, host).Ok?
    ensures var p := Step(st, m, host).value.pending;
            && |p| == |st.pending| + 1 && p[..|st.pending|] == st.pending
            && p[|st.pending|].key == m.name && (p[|st.pending|].Destroy? <==> m.Remove?)
  {
  }

  lemma StepPreservesValid(st: State, m: Mutation, host: Host)
    requires Valid(st, host)
    requires Step(st, m, host).Ok?
    ensures Valid(Step(st, m, host).value, host)
  {
    match m {
      case Assign(name, value) => SetPreservesValid(st, name, value, host);
      case Remove(name) => DeletePreservesValid(st, name, host);
    }
  }

  /** Running a sequence of statements; the first that throws ends it. */
  function Run(st: State, ms: seq<Mutation>, host: Host): Result<State, ErrorKind>
    decreases |ms|
  {
    if |ms| == 0 then Ok(st)
    else
      var st' :- Step(st, ms[0], host);
      Run(st', ms[1..], host)
  }

  /** Any sequence of statements keeps the store valid. */
  lemma {:induction false} RunPreservesValid(st: State, ms: seq<Mutation>, host: Host)
    requires Valid(st, host)
    requires Run(st, ms, host).Ok?
    ensures Valid(Run(st, ms, host).value, host)
    decreases |ms|
  {
    if |ms| > 0 {
      StepPreservesValid(st, ms[0], host);
      RunPreservesValid(Step(st, ms[0], host).value, ms[1..], host);
    }
  }

  /** The queue receives exactly one task per statement, in statement order,
      after everything queued before. */
  lemma {:induction false} RunQueuesInOrder(st: State, ms: seq<Mutation>, host: Host)
    requires Run(st, ms, host).Ok?
    ensures var p := Run(st, ms, host).value.pending;
            && |p| == |st.pending| + |ms|
            && p[..|st.pending|] == st.pending
            && forall i :: 0 <= i < |ms| ==>
                 p[|st.pending| + i].key == ms[i].name && (p[|st.pending| + i].Destroy? <==> ms[i].Remove?)
    decreases |ms|
  {
    if |ms| > 0 {
      var st' := Step(st, ms[0], host).value;
      StepQueuesOne(st, ms[0], host);
      RunQueuesInOrder(st', ms[1..], host);
      var p := Run(st, ms, host).value.pending;
      assert p == Run(st', ms[1..], host).value.pending;
      var n := |st.pending|;
      assert p[..n + 1] == st'.pending;
      assert p[..n] == st'.pending[..n];
      forall i | 0 <= i < |ms|
        ensures p[n + i].key == ms[i].name && (p[n + i].Destroy? <==> ms[i].Remove?)
      {
        if i == 0 {
          assert p[n] == st'.pending[n];
        } else {
          assert ms[i] == ms[1..][i - 1];
          assert p[n + i] == p[|st'.pending| + (i - 1)];
        }
      }
    }
  }
}

=== FILE: values.dfy ===
/** The JavaScript values the store's functions receive as `any`, the parts of
    the language they inspect (`typeof`, the `in` operator, property reads),
    and the runtime library calls the model leaves uninterpreted. */
module Values {

  import opened Wrappers
  import opened Errors
  import opened Numbers

  /** A JavaScript value. Objects are plain data records; functions, symbols,
      boxed primitives and prototype chains are not modelled. */
  datatype JsValue =
    | Undefined
    | Null
    | JBool(b: bool)
    | JNum(n: Number)
    | JStr(s: string)
    | JArray(items: seq<JsValue>)
    | JObject(fields: map<string, JsValue>)

  /** The `typeof` operator. */
  function TypeOf(v: JsValue): (t: string)
    ensures t == "object" <==> v.Null? || v.JArray? || v.JObject?
  {
    match v
    case Undefined => "undefined"
    case Null => "object"
    case JBool(_) => "boolean"
    case JNum(_) => "number"
    case JStr(_) => "string"
    case JArray(_) => "object"
    case JObject(_) => "object"
  }

  /** `'type' in v`, the one use of the `in` operator in the store: it throws
      a TypeError on anything but an object, and otherwise asks for an own
      key. Array indices, `length` and names inherited from
      `Object.prototype` would answer differently and are not modelled. */
  function HasProperty(v: JsValue, name: string): (r: Result<bool, ErrorKind>)
    ensures r.Err? <==> TypeOf(v) != "object" || v.Null?
    ensures r.Err? ==> r.error == TypeError
    ensures r == Ok(true) <==> v.JObject? && name in v.fields
  {
    match v
    case JObject(fields) => Ok(name in fields)
    case JArray(_) => Ok(false)
    case _ => Err(TypeError)
  }

  /** `v[name]` for the two names the store reads, `type` and `default`, which
      no primitive or array carries; reading a property of null or undefined
      throws a TypeError. */
  function Property(v: JsValue, name: string): (r: Result<JsValue, ErrorKind>)
    ensures r.Err? <==> v.Null? || v.Undefined?
    ensures r.Err? ==> r.error == TypeError
    ensures r.Ok? && r.value != Undefined ==> v.JObject? && name in v.fields && v.fields[name] == r.value
    ensures v.JObject? && name in v.fields ==> r == Ok(v.fields[name])
    ensures !v.JObject? && r.Ok? ==> r.value == Undefined
  {
    match v
    case Undefined => Err(TypeError)
    case Null => Err(TypeError)
    case JObject(fields) => Ok(if name in fields then fields[name] else Undefined)
    case _ => Ok(Undefined)
  }

  /** Runtime library functions the store calls but the model does not
      define: `JSON.stringify`, `JSON.parse` (None when it throws),
      `parseFloat`, and the formatting `Number.prototype.toString` uses for
      fractions and for integers from 1e21 on. */
  datatype Host = Host(
    stringify: JsValue -> string,
    parseJson: string -> Option<JsValue>,
    parseFloat: string -> Number,
    formatReal: real -> string)
}

=== FILE: wrappers.dfy ===
/** Failure-compatible Option and Result datatypes used throughout the model. */
module Wrappers {

  /** An optional value; `None` stands for JavaScript's "no such thing". */
  datatype Option<+T> = None | Some(value: T)

  /** Either a value or the error a JavaScript call would throw. */
  datatype Result<+T, +E> = Ok(value: T) | Err(error: E) {

    predicate IsFailure() {
      Err?
    }

    function PropagateFailure<U>(): Result<U, E>
      requires Err?
    {
      Err(error)
    }

    function Extract(): T
      requires Ok?
    {
      value
    }
  }
}
